=== FILE: README.md ===
# WorkTimeSaver ledger, modelled in Dafny

WorkTimeSaver keeps a yearly text file of work days. Each run appends the day's record (`dd.mm`, start–end clock, time worked). First it reads the month's records back from the end of the file and sums them into a `Salary`.

When the last line of the file names another month, the run does two more things first:

- it writes that month's summary: days, hours, pay before and after tax, optionally the amounts exchanged into PLN, then a separator line;
- it starts a new `Salary`.

The run returns the pay before tax of the month so far.

The model has five modules:

- `Wrappers` (`wrappers.dfy`): `Option` and `Result`.
- `Text` (`text.dfy`): the Python built-ins the two core files rely on, written out:
  - `str()` of an int, `:02` and `:.2f`;
  - `int()` on a string, with white space, sign and underscores;
  - `str.split`, with its inverse `join`.
- `Salaries` (`salary.dfy`), for `salary.py`:
  - the read-only methods are pure functions of the fields they read;
  - `class Salary` keeps the two counters that `update_work` changes in place, plus a ghost `log` of the minutes it was given.
- `Records` (`record.dfy`): `Record` of `document.py` as a value (a date and two clock times in seconds), with `get_hour` and `__str__`.
- `Ledger` (`document.py`):
  - the two regular expressions of `get_info` as scanners;
  - `get_minutes` and `get_month`;
  - `Scan`, the function that specifies `sum_month`;
  - `Process`, the function that specifies `process_file`;
  - `class Document`, whose methods change the year file (a field holding the file's lines) and the salary in place.

Crashes the source lets escape are `Err(ValueError)` or `Err(IndexError)`. `ValueError` comes from `int()` on a malformed field; `IndexError` from `[0]` on an existing empty file.

## Model

| member | source | states |
|---|---|---|
| Salaries.Salary.constructor | WorkTimeSaver/salary.py:54-61 | A new Salary has rate 250 and currency NOK. Exchange is on. Worktime and days at work are zero. |
| Salaries.Salary.UpdateWork | WorkTimeSaver/salary.py:107-121 | Days at work grow by one on every call. Worktime grows by the minutes, less 30 when they exceed 240. Both counters never shrink for a non-negative day. The ghost log gains the minutes, keeping worktime equal to `Credited(log)`. |
| Salaries.Salary.GetCurrency | WorkTimeSaver/salary.py:159-162 | Returns the salary currency, "NOK". |
| Salaries.Credit | WorkTimeSaver/salary.py:116-120 | No contract; the minutes one `update_work` call adds. See `Salary.UpdateWork`. |
| Salaries.Credited | WorkTimeSaver/salary.py:116-120 | No contract; the worktime a list of days adds up to. See `CreditedAppend`, `CreditedSwap` and `CreditedRepeat`. |
| Salaries.CreditedAppend | WorkTimeSaver/salary.py:107-121 | The worktime of consecutive runs of days is the sum of their worktimes. |
| Salaries.CreditedSwap | WorkTimeSaver/salary.py:107-121 | The order in which days are counted does not change the worktime. |
| Salaries.CreditedRepeat | WorkTimeSaver/salary.py:107-121 | n equal days of m minutes add n times the credit of one day. |
| Salaries.TwentyFullDays | test.py:10-15 | Twenty days of 480 minutes give worktime 9000. The 20 days at work of the test are the log's length, which `Salary.Valid` ties to the day counter. |
| Salaries.CalculateSalary | WorkTimeSaver/salary.py:89-105 | At most 162.5 hours: all of it at rate 250, no overtime pay. Above that: the normal part is capped at 162.5 × 250, the overtime part is positive, and the two together pay every hour, the overtime hours at 1.5 times the rate. |
| Salaries.Gross | WorkTimeSaver/document.py:156 | No contract; `sum(calculate_salary())`. See `CalculateSalary` and `GrossMonotonic`. |
| Salaries.Net | WorkTimeSaver/salary.py:80-81 | No contract; `deduct_tax(calculate_salary())`. See `DeductTax`. |
| Salaries.GrossMonotonic | WorkTimeSaver/salary.py:89-105 | More worktime never gives a smaller pre-tax total. |
| Salaries.CalculateSalaryExamples | test.py:17-30 | The five (worktime, pay) pairs of the salary test. |
| Salaries.DeductTax | WorkTimeSaver/salary.py:123-139 | The amount withheld is exactly 23% of the normal pay plus 35% of the overtime pay. For non-negative pay the net lies between 0 and the gross. |
| Salaries.DeductTaxExamples | test.py:32-43 | The four (pay, net) pairs of the tax test. |
| Salaries.ExchangeCurrency | WorkTimeSaver/salary.py:141-157 | No contract; see `ExchangeCurrencyReadsBack`. |
| Salaries.ExchangeCurrencyReadsBack | WorkTimeSaver/salary.py:141-157 | The exchanged text ends in "PLN". Before that it reads back, as a number of cents, to the amount × 0.41 within half a cent. |
| Salaries.HoursFieldReadsBack | WorkTimeSaver/salary.py:86 | The `hours:minutes` field of the summary splits at its colon into two numbers that give the worktime back. |
| Salaries.SumUp | WorkTimeSaver/salary.py:70-87 | No contract; see `HoursFieldReadsBack`, `SumUpExchangedIff` and `SummaryLinesAreLines`. |
| Salaries.SalaryText | WorkTimeSaver/salary.py:66-68 | No contract; see `SalaryTextLines`. |
| Salaries.SumUpExchangedIff | WorkTimeSaver/salary.py:80-87 | The summary holds the parenthesised exchanged amounts if and only if exchange is on. |
| Salaries.AmountTextParen | WorkTimeSaver/salary.py:82-85 | One amount text has a parenthesis if and only if exchange is on. |
| Salaries.SalaryTextLines | WorkTimeSaver/salary.py:66-68 | `str(salary)` printed to the file is six lines: the three lines of the summary, a blank line, the separator and a blank line. |
| Salaries.SummaryLinesAreLines | WorkTimeSaver/salary.py:80-87 | None of the three summary lines, nor the separator, holds a newline. |
| Records.NewRecord | WorkTimeSaver/document.py:54-66 | The record's date is `dd.mm` of the day and month given. The start and end clock times give back the hours and minutes given. The record is well formed. |
| Records.NewRecordExample | test.py:60-63 | 15.02 from 08:00 to 18:25 is the record (15.02, 28800 s, 66300 s). |
| Records.GetHour | WorkTimeSaver/document.py:75-78 | `get_hour` is five characters: two digits, a colon, two digits. The first two spell the whole hours of the seconds part, the last two the minutes past the hour. |
| Records.GetHourReadsBack | WorkTimeSaver/document.py:75-78 | The two fields of `get_hour`, read by `int()`, give back the whole minutes of the timedelta's seconds part. |
| Records.Seconds | WorkTimeSaver/document.py:78 | `timedelta.seconds` lies in [0, 86400) and differs from the timedelta by whole days. |
| Records.Duration | WorkTimeSaver/document.py:72-73 | No contract; the seconds part of end − start. See `DurationWraps`. |
| Records.RecordText | WorkTimeSaver/document.py:71-73 | No contract; see `RecordTextExample`, `MidnightExample`, `Ledger.RecordLineShape` and the two record round trips. |
| Records.DurationWraps | WorkTimeSaver/document.py:72-73 | The time worked is end − start, or end − start plus a day when the end clock is earlier than the start clock. It is a whole number of minutes. |
| Records.RecordTextExample | test.py:60-65 | The record of the test renders as `15.02\t\t08:00-18:25\t10:25h`. |
| Records.MidnightExample | test.py:101 | 08:00 to 00:00 renders a duration of 16:00h, not a negative one. |
| Ledger.GetInfo | WorkTimeSaver/document.py:173-194 | A group that is found has the shape of the pattern's group: `..:..` or two characters. |
| Ledger.GetInfoNone | WorkTimeSaver/document.py:173-194 | `get_info` finds nothing if and only if the pattern matches at no index of the line. |
| Ledger.FirstMatch | WorkTimeSaver/document.py:192 | The index `re.search` reports, if any, is at or after the start of the search and inside the line, and the pattern matches there. |
| Ledger.FirstMatchLeftmost | WorkTimeSaver/document.py:192 | No index before the match found (or anywhere, when none is found) matches: the match is the leftmost one. |
| Ledger.LeftmostMatch | WorkTimeSaver/document.py:192 | A match with none to its left is the group `get_info` returns. |
| Ledger.ClockValue | WorkTimeSaver/document.py:213-215 | The only crash reading `hh:mm` into minutes is a ValueError. See `ClockValueOfFields` for the value. |
| Ledger.GetMinutes | WorkTimeSaver/document.py:196-216 | The result is "no value" exactly when the line has no duration field. Any crash is a ValueError. |
| Ledger.GetMonth | WorkTimeSaver/document.py:218-237 | A line without a month field gives 0. Any crash is a ValueError. |
| Ledger.NoTabNoFields | WorkTimeSaver/document.py:196-237 | A line with no tab has neither field: `get_minutes` gives no value and `get_month` gives 0. |
| Ledger.SeparatorHasNoFields | WorkTimeSaver/document.py:196-237 | The separator line and a blank line have neither field. |
| Ledger.RecordLineShape | WorkTimeSaver/document.py:71-73 | A rendered record has the fixed layout. Its duration field is the `get_hour` of end − start. Its month field is the date's month. |
| Ledger.RecordMinutesRoundTrip | WorkTimeSaver/document.py:71-78 | `get_minutes` of a rendered record is its duration in minutes. |
| Ledger.RecordMonthRoundTrip | WorkTimeSaver/document.py:71-73 | `get_month` of a rendered record is the month of its date. |
| Ledger.RecordLineSplits | WorkTimeSaver/document.py:256-266 | A record line holds no newline, so printing it to the file adds exactly one line. |
| Ledger.Scan | WorkTimeSaver/document.py:158-171 | The minutes `sum_month` passes on are never more than the lines it reads. |
| Ledger.ScanLongestRun | WorkTimeSaver/document.py:158-171 | A scan counts exactly the longest run of leading lines whose duration field is present and non-zero. The line after the run, if any, has no field or a zero one. |
| Ledger.ScanCrash | WorkTimeSaver/document.py:158-171 | A scan that crashes does so on a line whose predecessors were all counted. |
| Ledger.ScanCounts | WorkTimeSaver/document.py:167-171 | A line with a non-zero duration field is counted, and the scan goes on. |
| Ledger.ScanStops | WorkTimeSaver/document.py:167-170 | A line without a non-zero duration field ends the scan. |
| Ledger.ZeroDayEndsScan | WorkTimeSaver/document.py:167-170 | A record whose start equals its end reads `00:00h`, adds no day, and hides every line above it from the scan. |
| Ledger.ScanRecordLine | WorkTimeSaver/document.py:154-155 | Scanning the new record's line alone counts its minutes, unless the record is 00:00h long. |
| Ledger.Reverse | WorkTimeSaver/document.py:252 | `reversed()` puts element i at position n − 1 − i. |
| Ledger.ReverseAppend | WorkTimeSaver/document.py:252 | Reversing a concatenation reverses the order of its parts. |
| Ledger.Process | WorkTimeSaver/document.py:134-156 | No contract; the file, salary days and flag after one run. Its promises are `ProcessAppends`, `ProcessResets` and `RescanAgrees`. The `Process…` lemmas that follow each unfold one branch for `Document.ReadMonth`'s proof. |
| Ledger.Rollover | WorkTimeSaver/document.py:148-151 | No contract; the file exists, and its last line reads as a month other than the document's. See `ProcessAppends`. |
| Ledger.SummaryLines | WorkTimeSaver/document.py:152 | No contract; the lines `print(salary)` adds. See `Salaries.SalaryTextLines` and `ProcessAppends`. |
| Ledger.ProcessNewFile | WorkTimeSaver/document.py:147-155 | With no file yet, the file is created holding the record alone, and the record is counted. |
| Ledger.ProcessEmptyFile | WorkTimeSaver/document.py:147-150 | An existing empty file makes `process_file` crash with IndexError. |
| Ledger.ProcessTailFails | WorkTimeSaver/document.py:147-149 | A malformed duration among the trailing records crashes the run before anything is written. |
| Ledger.ProcessMonthFails | WorkTimeSaver/document.py:150 | A malformed month on the last line crashes the run before anything is written. |
| Ledger.ProcessCloses | WorkTimeSaver/document.py:149-155 | When the last line names another month, the run appends the six summary lines of the days read so far, then the record. The new salary holds the record's day alone, with exchange on. |
| Ledger.ProcessContinues | WorkTimeSaver/document.py:147-155 | When the last line names this month (or there is no file), only the record is appended. The salary adds the trailing days and the record's day. |
| Ledger.ProcessAppends | WorkTimeSaver/document.py:134-156 | The file is only appended to, and the record comes last. The six summary lines sit in between exactly when the month rolls over, and they are the summary of the month read. |
| Ledger.ProcessResets | WorkTimeSaver/document.py:149-155 | After a rollover the salary holds only the record's minutes, with exchange on. Otherwise it holds the trailing days and the record's, with the flag unchanged. |
| Ledger.RescanAfterSummary | WorkTimeSaver/document.py:158-171 | Read back from the end, a record appended after a summary is counted alone: the blank line stops the scan. |
| Ledger.RescanAfterDays | WorkTimeSaver/document.py:158-171 | Read back from the end, a record appended to a month is counted before that month's days. |
| Ledger.RescanAgrees | WorkTimeSaver/document.py:134-171 | For a record at least a minute long, what one run writes is what the next run reads: scanning the new file from its end finds the days the salary accumulated (same multiset, same count, same worktime). |
| Ledger.RescanClosed | WorkTimeSaver/document.py:149-155 | After a summary, the new file reads back as the record's day alone. |
| Ledger.RescanContinued | WorkTimeSaver/document.py:147-155 | Within a month, the new file reads back as the record's day and then the month's trailing days; order does not change the worktime. |
| Ledger.Document.constructor | WorkTimeSaver/document.py:116-129 | The file name is the year followed by ".txt". The month and the record come from the date and the end time. The salary is a fresh Salary. |
| Ledger.Document.GetLines | WorkTimeSaver/document.py:239-254 | No value when the file does not exist; otherwise every line of the file, last line first. |
| Ledger.Document.SaveData | WorkTimeSaver/document.py:256-266 | Printing a text appends exactly its lines; an absent file is created. |
| Ledger.Document.SumMonth | WorkTimeSaver/document.py:158-171 | The salary receives exactly the minutes of `Scan(lines)`, in order. A malformed field crashes with that scan's error. |
| Ledger.Document.CloseMonth | WorkTimeSaver/document.py:151-153 | Appends the summary lines of the salary's days and replaces the salary with a fresh one. |
| Ledger.Document.ReadMonth | WorkTimeSaver/document.py:147-153 | The read and rollover part of `process_file`: its crash leaves the file as it was. On success, appending and counting the record gives `Process`'s outcome. |
| Ledger.Document.ProcessFile | WorkTimeSaver/document.py:134-156 | The file, the salary days and the exchange flag end as `Process` says. A crash leaves the file as it was. The result is the pre-tax total of the salary days, to two decimals, followed by "NOK". |
| Text.ParseInt | WorkTimeSaver/document.py:215 | No contract; `int()` of a string. See `ParseDigits`. |
| Text.NatToString | WorkTimeSaver/salary.py:86 | `str()` of n ≥ 0 is a non-empty run of digits that spells n, with no leading zero except for 0 itself. |
| Text.IntToString | WorkTimeSaver/salary.py:86 | `str()` of an int is its digits, preceded by '-' when it is negative. |
| Text.Pad2 | WorkTimeSaver/document.py:78 | `:02` of a number below 100 is two digits that spell it. |
| Text.Cents | WorkTimeSaver/salary.py:157 | No contract; `:.2f` of a non-negative amount. See `CentsRoundTrip`. |
| Text.Fixed2 | WorkTimeSaver/salary.py:86-87 | No contract; `:.2f` with a '-' for negative amounts. See `CentsRoundTrip`. |
| Text.Split | WorkTimeSaver/document.py:214 | `str.split` gives at least one piece. See `SplitJoin` and `JoinSplit` for the inverse. |
| Text.ParseDigits | WorkTimeSaver/document.py:215 | `int()` of a run of digits is the number they spell. |
| Text.CentsRoundTrip | WorkTimeSaver/salary.py:86-87 | `:.2f` of a non-negative amount reads back to within half a cent. |
| Text.SplitJoin | WorkTimeSaver/document.py:214 | Splitting a join of separator-free pieces gives the pieces back. |
| Text.JoinSplit | WorkTimeSaver/document.py:214 | Joining the pieces of a split gives the text back. |

## Left out

- The GUI, `__main__`, `setup.py` and the `__repr__` methods are not part of this model.
- Real file I/O is not modelled. The year file is a field holding a sequence of lines without their newlines, and `None` while the file does not exist.
  - The file a run starts from is a constructor parameter.
  - The file name is kept, but nothing is opened.
- A file whose last line lacks its newline is not modelled: every line is assumed to end with one.
- Clocks are not modelled: the date and the two clock times are constructor parameters.
- The general regular-expression engine is left out. Only the two patterns `get_info` is called with are modelled, as scanners over the line (`.` matches anything but a newline).
- Floats are not modelled; amounts are exact reals. `:.2f` rounds the exact value half-to-even, which differs from Python only where the binary float is not exact.
- `int()` accepts only ASCII white space and ASCII digits. Python's other Unicode digits and spaces are not modelled.
- The year passed to the Document constructor is not range-checked (`datetime` keeps it in 1..9999). Month, day, hours and minutes are required to be in range, as `datetime` guarantees.
- Ledger.Document.ProcessFile: when `process_file` crashes, the model does not describe what the salary holds afterwards (the days counted before the crash). It only promises that the file is unchanged.
- Ledger.Document.ReadMonth and Ledger.Document.CloseMonth are the first half of `process_file` and its rollover block, written as separate methods. `process_file` itself is one function.
- The separator line is the 84 dashes the code prints (`WorkTimeSaver/salary.py:68`).
- `test_output` (`test.py:45-55`), the full `str(Salary)` for 20 days of 9750 minutes, is not restated as a lemma. The hours field, the amount formatting and the presence of the exchanged amounts are proved in general instead.
- `test_insertions_sum` (`test.py:74-130`) is not replayed line by line. Its two mechanisms are proved in general: the month total across runs (`RescanAgrees`) and the rollover summary (`ProcessAppends`).

=== FILE: document.dfy ===
/**
 * The year file and the Document that extends it: the two field scanners
 * that stand in for get_info's regular expressions, the scan of the
 * month's trailing records that sum_month performs, and process_file's
 * read, roll-over and append.
 *
 * The year file is a sequence of lines without their newline; absence of
 * the file is `None`.
 */
module Ledger {
  import opened Wrappers
  import opened Text
  import opened Salaries
  import opened Records

  /** The exceptions that escape process_file: int() on a malformed field, [0] of an empty file. */
  datatype Crash = ValueError | IndexError

  // --------------------------------------------------------------- get_info

  /** The two regular expressions get_info is called with. */
  datatype Pattern =
    | DurationField   // "\t(..:..)h": a tab, five characters with a colon in the middle, an "h"
    | MonthField      // ".(..)\t": one character, the two-character group, a tab

  /** The pattern matches `line` at index i ('.' is any character but a newline). */
  predicate MatchesAt(p: Pattern, line: string, i: int) {
    match p
    case DurationField =>
      && 0 <= i && i + 7 <= |line|
      && line[i] == '\t' && line[i + 1] != '\n' && line[i + 2] != '\n' && line[i + 3] == ':'
      && line[i + 4] != '\n' && line[i + 5] != '\n' && line[i + 6] == 'h'
    case MonthField =>
      && 0 <= i && i + 4 <= |line|
      && line[i] != '\n' && line[i + 1] != '\n' && line[i + 2] != '\n' && line[i + 3] == '\t'
  }

  /** Group 1 of a match at i. */
  function GroupAt(p: Pattern, line: string, i: int): string
    requires MatchesAt(p, line, i)
  {
    match p
    case DurationField => line[i + 1..i + 6]
    case MonthField => line[i + 1..i + 3]
  }

  /** What group 1 of each pattern looks like. */
  predicate GroupShape(p: Pattern, g: string) {
    match p
    case DurationField => |g| == 5 && g[2] == ':'
    case MonthField => |g| == 2
  }

  /** The leftmost match at or after `from`, as re.search finds it. */
  function FirstMatch(p: Pattern, line: string, from: nat): (r: Option<nat>)
    requires from <= |line|
    ensures r.Some? ==> from <= r.value < |line| && MatchesAt(p, line, r.value)
    decreases |line| - from
  {
    if from == |line| then None
    else if MatchesAt(p, line, from) then Some(from)
    else FirstMatch(p, line, from + 1)
  }

  /** No index from `from` up to the match found (or to the end, when none is) matches. */
  lemma {:induction false} FirstMatchLeftmost(p: Pattern, line: string, from: nat)
    requires from <= |line|
    ensures var r := FirstMatch(p, line, from);
      forall j :: from <= j < |line| && (r.None? || j < r.value) ==> !MatchesAt(p, line, j)
    decreases |line| - from
  {
    if from < |line| && !MatchesAt(p, line, from) {
      FirstMatchLeftmost(p, line, from + 1);
    }
  }

  /** get_info: group 1 of the leftmost match; None where the source returns False. */
  function GetInfo(p: Pattern, line: string): (r: Option<string>)
    ensures r.Some? ==> GroupShape(p, r.value)
  {
    match FirstMatch(p, line, 0)
    case None => None
    case Some(i) => Some(GroupAt(p, line, i))
  }

  /** get_info finds nothing exactly when the pattern matches nowhere in the line. */
  lemma GetInfoNone(p: Pattern, line: string)
    ensures GetInfo(p, line).None? <==> forall i :: 0 <= i < |line| ==> !MatchesAt(p, line, i)
  {
    FirstMatchLeftmost(p, line, 0);
  }

  /** A match with none to its left is the one get_info reports. */
  lemma LeftmostMatch(p: Pattern, line: string, i: int)
    requires MatchesAt(p, line, i)
    requires forall j :: 0 <= j < i ==> !MatchesAt(p, line, j)
    ensures GetInfo(p, line) == Some(GroupAt(p, line, i))
  {
    FirstMatchLeftmost(p, line, 0);
    var k := FirstMatch(p, line, 0);
    assert k.Some? && k.value == i;
  }

  // ---------------------------------------------------- get_minutes, get_month

  /**
   * The body of get_minutes after a match: the group split at its colons,
   * the first two pieces read by int() as hours and minutes.
   */
  function ClockValue(g: string): (r: Result<int, Crash>)
    requires GroupShape(DurationField, g)
    ensures r.Err? ==> r.error == ValueError
  {
    SplitAtSeparator(g, ':', 2);
    var time := Split(g, ':');
    var hours, minutes := ParseInt(time[0]), ParseInt(time[1]);
    if hours.Some? && minutes.Some? then Ok(hours.value * 60 + minutes.value)
    else Err(ValueError)
  }

  /**
   * get_minutes: the duration field read as hours * 60 + minutes; Ok(None)
   * where the source returns False, ValueError where int() rejects a part.
   */
  function GetMinutes(line: string): (r: Result<Option<int>, Crash>)
    ensures r == Ok(None) <==> GetInfo(DurationField, line).None?
    ensures r.Err? ==> r.error == ValueError
  {
    match GetInfo(DurationField, line)
    case None => Ok(None)
    case Some(g) =>
      var v := ClockValue(g);
      if v.Ok? then Ok(Some(v.value)) else Err(v.error)
  }

  /** get_month: the month field read by int(); 0 where no field is found. */
  function GetMonth(line: string): (r: Result<int, Crash>)
    ensures GetInfo(MonthField, line).None? ==> r == Ok(0)
    ensures r.Err? ==> r.error == ValueError
  {
    match GetInfo(MonthField, line)
    case None => Ok(0)
    case Some(g) =>
      var v := ParseInt(g);
      if v.Some? then Ok(v.value) else Err(ValueError)
  }

  /** A line without a tab (a blank line, the separator) has neither field. */
  lemma NoTabNoFields(line: string)
    requires '\t' !in line
    ensures GetMinutes(line) == Ok(None)
    ensures GetMonth(line) == Ok(0)
  {
    forall i | 0 <= i < |line|
      ensures !MatchesAt(DurationField, line, i) && !MatchesAt(MonthField, line, i)
    {
      if i + 3 < |line| {
        assert line[i + 3] in line;
      }
    }
    GetInfoNone(DurationField, line);
    GetInfoNone(MonthField, line);
  }

  lemma SeparatorHasNoFields()
    ensures GetMinutes(SEPARATOR) == Ok(None) && GetMonth(SEPARATOR) == Ok(0)
    ensures GetMinutes("") == Ok(None) && GetMonth("") == Ok(0)
  {
    assert '\t' !in SEPARATOR by {
      forall i | 0 <= i < |SEPARATOR| ensures SEPARATOR[i] != '\t' { }
    }
    NoTabNoFields(SEPARATOR);
    NoTabNoFields("");
  }

  /** The characters of a record's date and clock fields: no tab, no newline. */
  predicate Plain(c: char) {
    IsDigit(c) || c == '.' || c == ':'
  }

  /**
   * The lay-out of a record line: date, two tabs, start, a dash, end, a tab,
   * the duration and an "h"; the fields hold digits, points and colons only.
   */
  predicate RecordShape(line: string) {
    && |line| == 25
    && Plain(line[0]) && Plain(line[1]) && line[2] == '.' && Plain(line[3]) && Plain(line[4])
    && line[5] == '\t' && line[6] == '\t'
    && Plain(line[7]) && Plain(line[8]) && Plain(line[9]) && Plain(line[10]) && Plain(line[11]) && line[8] != ':'
    && line[12] == '-'
    && Plain(line[13]) && Plain(line[14]) && Plain(line[15]) && Plain(line[16]) && Plain(line[17])
    && line[18] == '\t'
    && Plain(line[19]) && Plain(line[20]) && line[21] == ':' && Plain(line[22]) && Plain(line[23])
    && line[24] == 'h'
  }

  lemma RecordLineShape(r: Record)
    requires ValidRecord(r)
    ensures RecordShape(RecordText(r))
    ensures RecordText(r)[19..24] == GetHour(r.end - r.start)
    ensures RecordText(r)[3..5] == r.date[3..]
  {
    var s, e, d := GetHour(r.start), GetHour(r.end), GetHour(r.end - r.start);
    RecordTextOf(r, s, e, d);
    LineShape(r.date, s, e, d);
  }

  /** A date and three clock texts laid out as __str__ does make a line of record shape. */
  lemma LineShape(date: string, s: string, e: string, d: string)
    requires IsDate(date)
    requires |s| == 5 && IsDigit(s[0]) && IsDigit(s[1]) && s[2] == ':' && IsDigit(s[3]) && IsDigit(s[4])
    requires |e| == 5 && IsDigit(e[0]) && IsDigit(e[1]) && e[2] == ':' && IsDigit(e[3]) && IsDigit(e[4])
    requires |d| == 5 && IsDigit(d[0]) && IsDigit(d[1]) && d[2] == ':' && IsDigit(d[3]) && IsDigit(d[4])
    ensures var line := date + "\t\t" + s + "-" + e + "\t" + d + "h";
      RecordShape(line) && line[19..24] == d && line[3..5] == date[3..]
  {
    var line := date + "\t\t" + s + "-" + e + "\t" + d + "h";
    assert forall k :: 0 <= k < 5 ==> line[k] == date[k];
    assert forall k :: 7 <= k < 12 ==> line[k] == s[k - 7];
    assert forall k :: 13 <= k < 18 ==> line[k] == e[k - 13];
    assert forall k :: 19 <= k < 24 ==> line[k] == d[k - 19];
  }

  /** A line laid out like a record has its duration field at index 18. */
  lemma DurationFieldOfShape(line: string)
    requires RecordShape(line)
    ensures GetInfo(DurationField, line) == Some(line[19..24])
  {
    forall j | 0 <= j < 18 ensures !MatchesAt(DurationField, line, j) {
      if j != 5 && j != 6 && j != 12 {
        assert Plain(line[j]);
      }
    }
    assert Plain(line[19]) && Plain(line[20]) && Plain(line[22]) && Plain(line[23]);
    LeftmostMatch(DurationField, line, 18);
  }

  /** A line laid out like a record has its month field at index 2. */
  lemma MonthFieldOfShape(line: string)
    requires RecordShape(line)
    ensures GetInfo(MonthField, line) == Some(line[3..5])
  {
    assert Plain(line[2]) && Plain(line[3]) && Plain(line[4]);
    LeftmostMatch(MonthField, line, 2);
  }

  /** A group that splits into two readable numbers is read as hours and minutes. */
  lemma ClockValueOfFields(g: string, hours: string, minutes: string)
    requires GroupShape(DurationField, g) && Split(g, ':') == [hours, minutes]
    requires ParseInt(hours).Some? && ParseInt(minutes).Some?
    ensures ClockValue(g) == Ok(ParseInt(hours).value * 60 + ParseInt(minutes).value)
  {
  }

  /** A duration field written by get_hour reads back as the minutes of the timedelta. */
  lemma ClockMinutes(line: string, td: int)
    requires GetInfo(DurationField, line) == Some(GetHour(td))
    ensures GetMinutes(line) == Ok(Some(Seconds(td) / 60))
  {
    var g := GetHour(td);
    GetHourReadsBack(td);
    ClockValueOfFields(g, g[..2], g[3..]);
  }

  /** A record line holds no newline, so saving it adds exactly one line. */
  lemma RecordLineSplits(r: Record)
    requires ValidRecord(r)
    ensures Split(RecordText(r), '\n') == [RecordText(r)]
  {
    RecordLineShape(r);
    var line := RecordText(r);
    forall k | 0 <= k < |line| ensures line[k] != '\n' {
      if k != 5 && k != 6 && k != 12 && k != 18 && k != 24 {
        assert Plain(line[k]);
      }
    }
    SplitNoSeparator(line, '\n');
  }

  /** Round trip: get_minutes of a rendered record is its duration in minutes. */
  lemma RecordMinutesRoundTrip(r: Record)
    requires ValidRecord(r)
    ensures GetMinutes(RecordText(r)) == Ok(Some(Duration(r) / 60))
  {
    var td := r.end - r.start;
    assert Duration(r) == Seconds(td);
    RecordLineShape(r);
    MinutesOfShape(RecordText(r), td);
  }

  /** A line laid out like a record, whose duration field is get_hour's text, reads back as its minutes. */
  lemma MinutesOfShape(line: string, td: int)
    requires RecordShape(line) && line[19..24] == GetHour(td)
    ensures GetMinutes(line) == Ok(Some(Seconds(td) / 60))
  {
    DurationFieldOfShape(line);
    ClockMinutes(line, td);
  }

  /** Round trip: get_month of a rendered record is the month of its date. */
  lemma RecordMonthRoundTrip(r: Record)
    requires ValidRecord(r)
    ensures GetMonth(RecordText(r)) == Ok(DateMonth(r.date))
  {
    var mm := r.date[3..];
    assert DateMonth(r.date) == DigitsValue(mm);
    RecordLineShape(r);
    MonthOfShape(RecordText(r), mm);
  }

  /** A line laid out like a record, whose month field holds two digits, reads back as their value. */
  lemma MonthOfShape(line: string, mm: string)
    requires RecordShape(line) && line[3..5] == mm && |mm| == 2 && IsDigit(mm[0]) && IsDigit(mm[1])
    ensures GetMonth(line) == Ok(DigitsValue(mm))
  {
    MonthFieldOfShape(line);
    ParseDigits(mm);
  }

  // -------------------------------------------------------------- sum_month

  /** A get_minutes result that ends sum_month's loop: no field, or a zero one. */
  predicate Stops(m: Result<Option<int>, Crash>) {
    m == Ok(None) || m == Ok(Some(0))
  }

  /**
   * The minutes sum_month passes to update_work: those of the longest run
   * of leading lines whose duration field is present and non-zero, or the
   * crash of the first line in that run that int() rejects.
   */
  function Scan(lines: seq<string>): (r: Result<seq<int>, Crash>)
    ensures r.Ok? ==> |r.value| <= |lines|
  {
    if |lines| == 0 then Ok([])
    else
      var m := GetMinutes(lines[0]);
      if m.Err? then Err(m.error)
      else if Stops(m) then Ok([])
      else match Scan(lines[1..])
        case Err(e) => Err(e)
        case Ok(rest) => Ok([m.value.value] + rest)
  }

  /**
   * A successful scan counts exactly the longest run of leading lines with a
   * non-zero duration field: each counted line has that field, and the line
   * after the run (if any) has none or a zero one.
   */
  lemma {:induction false} ScanLongestRun(lines: seq<string>)
    requires Scan(lines).Ok?
    ensures var ms := Scan(lines).value;
      && (forall k :: 0 <= k < |ms| ==> ms[k] != 0 && GetMinutes(lines[k]) == Ok(Some(ms[k])))
      && (|ms| < |lines| ==> Stops(GetMinutes(lines[|ms|])))
  {
    if |lines| > 0 {
      var m := GetMinutes(lines[0]);
      if !Stops(m) {
        ScanLongestRun(lines[1..]);
        var rest := Scan(lines[1..]).value;
        var ms := Scan(lines).value;
        assert ms == [m.value.value] + rest;
        forall k | 0 < k < |ms| ensures ms[k] != 0 && GetMinutes(lines[k]) == Ok(Some(ms[k])) {
          assert lines[k] == lines[1..][k - 1] && ms[k] == rest[k - 1];
        }
        if |ms| < |lines| {
          assert lines[|ms|] == lines[1..][|rest|];
        }
      }
    }
  }

  /** Every line before index k carries a non-zero duration field. */
  predicate CountedBefore(lines: seq<string>, k: int)
    requires 0 <= k <= |lines|
  {
    forall j :: 0 <= j < k ==> GetMinutes(lines[j]).Ok? && !Stops(GetMinutes(lines[j]))
  }

  /** A crashing scan crashes on a line all of whose predecessors were counted. */
  lemma {:induction false} ScanCrash(lines: seq<string>)
    requires Scan(lines).Err?
    ensures exists k :: 0 <= k < |lines| && GetMinutes(lines[k]) == Err(Scan(lines).error) && CountedBefore(lines, k)
  {
    var e := Scan(lines).error;
    assert |lines| > 0;
    var m := GetMinutes(lines[0]);
    if m.Err? {
      assert GetMinutes(lines[0]) == Err(e) && CountedBefore(lines, 0);
    } else {
      assert !Stops(m) && Scan(lines[1..]) == Err(e);
      ScanCrash(lines[1..]);
      var k :| 0 <= k < |lines| - 1 && GetMinutes(lines[1..][k]) == Err(e) && CountedBefore(lines[1..], k);
      forall j | 0 <= j < k + 1 ensures GetMinutes(lines[j]).Ok? && !Stops(GetMinutes(lines[j])) {
        if j == 0 {
          assert GetMinutes(lines[j]) == m;
        } else {
          assert lines[j] == lines[1..][j - 1];
        }
      }
      assert GetMinutes(lines[k + 1]) == Err(e) && CountedBefore(lines, k + 1);
    }
  }

  /** The scan of a whole sequence, given the minutes `done` already counted before `r`. */
  function After(done: seq<int>, r: Result<seq<int>, Crash>): Result<seq<int>, Crash> {
    match r
    case Ok(ms) => Ok(done + ms)
    case Err(e) => Err(e)
  }

  lemma AfterAfter(done: seq<int>, m: int, r: Result<seq<int>, Crash>)
    ensures After(done, After([m], r)) == After(done + [m], r)
  {
    if r.Ok? {
      assert done + ([m] + r.value) == (done + [m]) + r.value;
    }
  }

  /** A line with a non-zero duration field is counted, and the scan goes on. */
  lemma ScanCounts(line: string, rest: seq<string>, m: int)
    requires GetMinutes(line) == Ok(Some(m)) && m != 0
    ensures Scan([line] + rest) == After([m], Scan(rest))
  {
    assert ([line] + rest)[1..] == rest;
  }

  /** A line without a non-zero duration field ends the scan. */
  lemma ScanStops(line: string, rest: seq<string>)
    requires Stops(GetMinutes(line))
    ensures Scan([line] + rest) == Ok([])
  {
  }

  /** A one-line scan counts the line's minutes unless they are zero. */
  lemma ScanOne(line: string, m: int)
    requires GetMinutes(line) == Ok(Some(m))
    ensures Scan([line]) == Ok(if m == 0 then [] else [m])
  {
    if m != 0 {
      ScanCounts(line, [], m);
      assert [line] + [] == [line];
      assert Scan([]) == Ok([]);
      assert [m] + [] == [m];
    }
  }

  /** The scan of a single record line counts its minutes, unless the record is 00:00h long. */
  lemma ScanRecordLine(r: Record)
    requires ValidRecord(r)
    ensures Scan([RecordText(r)]) == Ok(DayMinutes(r))
  {
    RecordMinutesRoundTrip(r);
    ScanOne(RecordText(r), Duration(r) / 60);
  }

  /** The minutes a new record adds to the month. */
  function DayMinutes(r: Record): seq<int> {
    if Duration(r) / 60 == 0 then [] else [Duration(r) / 60]
  }

  /** A record whose start and end coincide reads "00:00h" and hides every line above it. */
  lemma ZeroDayEndsScan(r: Record, above: seq<string>)
    requires ValidRecord(r) && r.start == r.end
    ensures DayMinutes(r) == []
    ensures Scan([RecordText(r)] + above) == Ok([])
  {
    assert Duration(r) == 0;
    RecordMinutesRoundTrip(r);
    ZeroLineStops(RecordText(r), above, Duration(r) / 60);
  }

  /** A line whose duration field reads zero minutes ends the scan. */
  lemma ZeroLineStops(line: string, above: seq<string>, m: int)
    requires GetMinutes(line) == Ok(Some(m)) && m == 0
    ensures Scan([line] + above) == Ok([])
  {
    ScanStops(line, above);
  }

  // ---------------------------------------------------------- process_file

  /** The lines of the file in reverse order, as reversed() yields them. */
  function Reverse<T>(s: seq<T>): (r: seq<T>)
    ensures |r| == |s|
    ensures forall i :: 0 <= i < |s| ==> r[i] == s[|s| - 1 - i]
  {
    if |s| == 0 then [] else [s[|s| - 1]] + Reverse(s[..|s| - 1])
  }

  lemma ReverseAppend<T>(a: seq<T>, b: seq<T>)
    ensures Reverse(a + b) == Reverse(b) + Reverse(a)
  {
    var l, r := Reverse(a + b), Reverse(b) + Reverse(a);
    assert |l| == |r|;
    forall i | 0 <= i < |l| ensures l[i] == r[i] {
      if i < |b| {
        assert l[i] == (a + b)[|a| + |b| - 1 - i] == b[|b| - 1 - i];
      } else {
        assert l[i] == (a + b)[|a| + |b| - 1 - i] == a[|a| - 1 - (i - |b|)];
      }
    }
  }

  /** The lines a file holds: none when it does not exist ('a+' creates it). */
  function Existing(file: Option<seq<string>>): seq<string> {
    if file.Some? then file.value else []
  }

  /** The minutes sum_month collects from an existing file before the new record. */
  function Tail(file: Option<seq<string>>): Result<seq<int>, Crash> {
    if file.Some? then Scan(Reverse(file.value)) else Ok([])
  }

  /** The month closes: the file exists and its last line names another month. */
  predicate Rollover(file: Option<seq<string>>, month: int) {
    && file.Some? && |file.value| > 0
    && GetMonth(file.value[|file.value| - 1]).Ok?
    && GetMonth(file.value[|file.value| - 1]).value != month
  }

  /**
   * The lines str(Salary) adds to the file for the days in `log`: the three
   * of sum_up, a blank, the separator and the blank line print ends with
   * (SalaryTextLines shows these are the lines of the saved text).
   */
  function SummaryLines(log: seq<int>, exchanged: bool): seq<string> {
    [HoursLine(|log|, Credited(log)), GrossLine(Credited(log), exchanged), NetLine(Credited(log), exchanged),
     "", SEPARATOR, ""]
  }

  /** The file and the salary state after process_file. */
  datatype Outcome = Outcome(lines: seq<string>, log: seq<int>, exchanged: bool)

  /**
   * process_file, on the file, the salary's days so far (`log`) and its
   * exchange flag: scan the trailing records, crash on an empty file or a
   * malformed field, close the month with a summary and a fresh Salary when
   * the last line names another month, then append the record and count it.
   */
  function Process(file: Option<seq<string>>, month: int, log: seq<int>, exchanged: bool, rec: Record)
    : Result<Outcome, Crash>
  {
    var tail := Tail(file);
    if tail.Err? then Err(tail.error)
    else if file.Some? && |file.value| == 0 then Err(IndexError)
    else if file.Some? && GetMonth(file.value[|file.value| - 1]).Err? then
      Err(GetMonth(file.value[|file.value| - 1]).error)
    else
      var before := log + tail.value;
      if Rollover(file, month) then
        Ok(Outcome(Existing(file) + SummaryLines(before, exchanged) + [RecordText(rec)], DayMinutes(rec), true))
      else
        Ok(Outcome(Existing(file) + [RecordText(rec)], before + DayMinutes(rec), exchanged))
  }

  /** A file that does not exist yet is created holding the record alone. */
  lemma ProcessNewFile(month: int, log: seq<int>, exchanged: bool, rec: Record)
    ensures Process(None, month, log, exchanged, rec)
         == Ok(Outcome([RecordText(rec)], log + DayMinutes(rec), exchanged))
  {
    assert Tail(None) == Ok([]) && !Rollover(None, month);
    assert log + [] == log;
    assert Existing(None) + [RecordText(rec)] == [RecordText(rec)];
  }

  /** An existing empty file makes process_file fail on its [0], leaving everything as it was. */
  lemma ProcessEmptyFile(month: int, log: seq<int>, exchanged: bool, rec: Record)
    ensures Process(Some([]), month, log, exchanged, rec) == Err(IndexError)
  {
    assert Reverse<string>([]) == [];
  }

  /** A malformed duration field among the trailing records stops process_file before it writes. */
  lemma ProcessTailFails(file: Option<seq<string>>, month: int, log: seq<int>, exchanged: bool, rec: Record)
    requires Tail(file).Err?
    ensures Process(file, month, log, exchanged, rec) == Err(Tail(file).error)
  {
  }

  /** A malformed month field on the last line stops process_file before it writes. */
  lemma ProcessMonthFails(file: Option<seq<string>>, month: int, log: seq<int>, exchanged: bool, rec: Record)
    requires Tail(file).Ok? && file.Some? && |file.value| > 0
    requires GetMonth(file.value[|file.value| - 1]).Err?
    ensures Process(file, month, log, exchanged, rec) == Err(GetMonth(file.value[|file.value| - 1]).error)
  {
  }

  /** A last line of another month: the summary of the month so far, then the record, counted alone. */
  lemma ProcessCloses(file: Option<seq<string>>, month: int, log: seq<int>, exchanged: bool, rec: Record)
    requires Tail(file).Ok? && Rollover(file, month)
    ensures Process(file, month, log, exchanged, rec)
         == Ok(Outcome(Existing(file) + SummaryLines(log + Tail(file).value, exchanged) + [RecordText(rec)],
                       DayMinutes(rec), true))
  {
  }

  /** No file yet, or a last line of the same month: the record is appended and counted with the month. */
  lemma ProcessContinues(file: Option<seq<string>>, month: int, log: seq<int>, exchanged: bool, rec: Record)
    requires Tail(file).Ok?
    requires file.Some? ==> |file.value| > 0 && GetMonth(file.value[|file.value| - 1]) == Ok(month)
    ensures Process(file, month, log, exchanged, rec)
         == Ok(Outcome(Existing(file) + [RecordText(rec)], log + Tail(file).value + DayMinutes(rec), exchanged))
  {
    assert !Rollover(file, month);
  }


  /**
   * The file is only appended to: its old lines stay, the record comes
   * last, and in between are the six summary lines exactly when the month
   * rolls over.
   */
  lemma ProcessAppends(file: Option<seq<string>>, month: int, log: seq<int>, exchanged: bool, rec: Record)
    requires Process(file, month, log, exchanged, rec).Ok?
    ensures var o := Process(file, month, log, exchanged, rec).value;
      var n := |Existing(file)|;
      && |o.lines| > n
      && o.lines[..n] == Existing(file)
      && o.lines[|o.lines| - 1] == RecordText(rec)
      && (Rollover(file, month) <==> |o.lines| == n + 7)
      && (!Rollover(file, month) <==> |o.lines| == n + 1)
      && (Rollover(file, month) ==>
            var before := log + Tail(file).value;
            o.lines[n..n + 6] == [HoursLine(|before|, Credited(before)), GrossLine(Credited(before), exchanged),
                                  NetLine(Credited(before), exchanged), "", SEPARATOR, ""])
  {
    var o := Process(file, month, log, exchanged, rec).value;
    var n := |Existing(file)|;
    if Rollover(file, month) {
      var before := log + Tail(file).value;
      var summary := SummaryLines(before, exchanged);
      assert o.lines == Existing(file) + summary + [RecordText(rec)];
      assert o.lines[n..n + 6] == summary;
    }
  }

  /** After a month closes the salary holds the new record alone. */
  lemma ProcessResets(file: Option<seq<string>>, month: int, log: seq<int>, exchanged: bool, rec: Record)
    requires Process(file, month, log, exchanged, rec).Ok?
    ensures var o := Process(file, month, log, exchanged, rec).value;
      && (Rollover(file, month) ==> o.log == DayMinutes(rec) && o.exchanged)
      && (!Rollover(file, month) ==> o.log == log + Tail(file).value + DayMinutes(rec) && o.exchanged == exchanged)
  {
  }

  /** Read backwards, a record appended after a summary is counted alone: the blank line stops the scan. */
  lemma RescanAfterSummary(above: seq<string>, summary: seq<string>, line: string, d: int)
    requires |summary| > 0 && summary[|summary| - 1] == ""
    requires GetMinutes(line) == Ok(Some(d)) && d != 0
    ensures Scan(Reverse(above + summary + [line])) == Ok([d])
  {
    ReverseAppend(above + summary, [line]);
    ReverseAppend(above, summary);
    var rest := Reverse(summary) + Reverse(above);
    assert Reverse([line]) == [line];
    assert Reverse(above + summary + [line]) == [line] + rest;
    SeparatorHasNoFields();
    assert rest[0] == Reverse(summary)[0] == "";
    assert rest == [""] + rest[1..];
    ScanStops("", rest[1..]);
    assert Scan(rest) == Ok([]);
    ScanCounts(line, rest, d);
    assert [d] + [] == [d];
  }

  /** Read backwards, a record appended to a month is counted before the month's days. */
  lemma RescanAfterDays(above: seq<string>, line: string, d: int)
    requires GetMinutes(line) == Ok(Some(d)) && d != 0
    requires Scan(Reverse(above)).Ok?
    ensures Scan(Reverse(above + [line])) == Ok([d] + Scan(Reverse(above)).value)
  {
    ReverseAppend(above, [line]);
    assert Reverse([line]) == [line];
    ScanCounts(line, Reverse(above), d);
  }

  /**
   * What process_file writes is what the next run reads: scanning the new
   * file from the end finds the same days (in another order) that a fresh
   * Salary accumulated in this run, so the same worktime.
   */
  lemma RescanAgrees(file: Option<seq<string>>, month: int, exchanged: bool, rec: Record)
    requires ValidRecord(rec) && Duration(rec) / 60 != 0
    requires Process(file, month, [], exchanged, rec).Ok?
    ensures var o := Process(file, month, [], exchanged, rec).value;
      && Scan(Reverse(o.lines)).Ok?
      && multiset(Scan(Reverse(o.lines)).value) == multiset(o.log)
      && |Scan(Reverse(o.lines)).value| == |o.log|
      && Credited(Scan(Reverse(o.lines)).value) == Credited(o.log)
  {
    var tail := Tail(file).value;
    assert [] + tail == tail;
    if Rollover(file, month) {
      ProcessCloses(file, month, [], exchanged, rec);
      RescanClosed(Existing(file), SummaryLines(tail, exchanged), rec);
    } else {
      ProcessContinues(file, month, [], exchanged, rec);
      RescanContinued(Existing(file), tail, rec);
    }
  }

  /** After a summary the new file reads back as the record's day alone. */
  lemma RescanClosed(above: seq<string>, summary: seq<string>, rec: Record)
    requires ValidRecord(rec) && Duration(rec) / 60 != 0
    requires |summary| > 0 && summary[|summary| - 1] == ""
    ensures Scan(Reverse(above + summary + [RecordText(rec)])) == Ok(DayMinutes(rec))
  {
    RecordMinutesRoundTrip(rec);
    RescanAfterSummary(above, summary, RecordText(rec), Duration(rec) / 60);
  }

  /** Within a month the new file reads back as the record's day followed by the month's trailing days. */
  lemma RescanContinued(above: seq<string>, tail: seq<int>, rec: Record)
    requires ValidRecord(rec) && Duration(rec) / 60 != 0
    requires Scan(Reverse(above)) == Ok(tail)
    ensures Scan(Reverse(above + [RecordText(rec)])) == Ok(DayMinutes(rec) + tail)
    ensures multiset(DayMinutes(rec) + tail) == multiset(tail + DayMinutes(rec))
    ensures Credited(DayMinutes(rec) + tail) == Credited(tail + DayMinutes(rec))
  {
    RecordMinutesRoundTrip(rec);
    RescanAfterDays(above, RecordText(rec), Duration(rec) / 60);
    CreditedSwap(DayMinutes(rec), tail);
  }

  // -------------------------------------------------------------- Document

  /** A run of the application: the year file, the month's Salary and the new record. */
  class Document {
    /** The year file's name: the year and ".txt". */
    const name: string
    /** The month of the new record. */
    const month: int
    const record: Record
    var salary: Salary
    /** The year file's lines; None while it does not exist. */
    var file: Option<seq<string>>

    ghost predicate Valid()
      reads this, salary
    {
      && salary.Valid()
      && ValidRecord(record)
      && 1 <= month <= 12
      && DateMonth(record.date) == month
    }

    /** __init__: the record from the start and end of the day; `disk` is the year file as found. */
    constructor (year: int, month: int, day: int, hour: int, minute: int, endHour: int, endMinute: int,
                 disk: Option<seq<string>>)
      requires 1 <= day <= 31 && 1 <= month <= 12
      requires 0 <= hour < 24 && 0 <= minute < 60 && 0 <= endHour < 24 && 0 <= endMinute < 60
      ensures Valid()
      ensures name == IntToString(year) + ".txt" && this.month == month
      ensures record == NewRecord(day, month, hour, minute, endHour, endMinute)
      ensures file == disk
      ensures fresh(salary) && salary.log == [] && salary.isExchanged
    {
      name := IntToString(year) + ".txt";
      this.month := month;
      record := NewRecord(day, month, hour, minute, endHour, endMinute);
      salary := new Salary();
      file := disk;
    }

    /** get_lines: the file's lines last first, or None when it does not exist. */
    function GetLines(): (r: Option<seq<string>>)
      reads this
      ensures r.None? <==> file.None?
      ensures r.Some? ==> (|r.value| == |file.value|
                        && forall i :: 0 <= i < |r.value| ==> r.value[i] == file.value[|file.value| - 1 - i])
    {
      if file.Some? then Some(Reverse(file.value)) else None
    }

    /** save_data: print(text) appends the text and a newline, so the text's lines. */
    method SaveData(text: string)
      modifies this`file
      ensures file == Some(Existing(old(file)) + Split(text, '\n'))
    {
      file := Some(Existing(file) + Split(text, '\n'));
    }

    /**
     * sum_month: update_work with the minutes of each line until one has no
     * duration field or a zero one; a field int() rejects raises ValueError.
     */
    method SumMonth(lines: seq<string>) returns (outcome: Result<(), Crash>)
      requires Valid()
      modifies salary
      ensures Valid()
      ensures Scan(lines).Ok? ==>
                outcome == Ok(())
                && salary.log == old(salary.log) + Scan(lines).value
                && salary.isExchanged == old(salary.isExchanged)
      ensures Scan(lines).Err? ==> outcome == Err(Scan(lines).error)
    {
      var rest := lines;
      ghost var done: seq<int> := [];
      assert Scan(lines).Ok? ==> [] + Scan(lines).value == Scan(lines).value;
      while |rest| > 0
        invariant Valid()
        invariant salary.log == old(salary.log) + done
        invariant salary.isExchanged == old(salary.isExchanged)
        invariant Scan(lines) == After(done, Scan(rest))
      {
        var time := GetMinutes(rest[0]);
        if time.Err? {
          return Err(time.error);
        }
        if Stops(time) {
          assert done + [] == done;
          break;
        }
        var m := time.value.value;
        AfterAfter(done, m, Scan(rest[1..]));
        salary.UpdateWork(m);
        done := done + [m];
        rest := rest[1..];
      }
      if |rest| == 0 {
        assert done + [] == done;
      }
      return Ok(());
    }

    /**
     * process_file: the whole run on the year file, returning the pre-tax
     * total and its currency; a crash leaves the file as it was.
     */
    method ProcessFile() returns (r: Result<string, Crash>)
      requires Valid()
      modifies this, salary
      ensures Valid()
      ensures var p := Process(old(file), month, old(salary.log), old(salary.isExchanged), record);
        && (p.Err? ==> r == Err(p.error) && file == old(file))
        && (p.Ok? ==> && r == Ok(Fixed2(Gross(Credited(p.value.log))) + CURRENCY)
                      && file == Some(p.value.lines)
                      && salary.log == p.value.log
                      && salary.isExchanged == p.value.exchanged)
    {
      var read := ReadMonth();
      if read.Err? {
        return Err(read.error);
      }
      ghost var o := Outcome(Existing(file) + [RecordText(record)], salary.log + DayMinutes(record), salary.isExchanged);
      ScanRecordLine(record);
      RecordLineSplits(record);
      SaveData(RecordText(record));
      assert file == Some(o.lines);
      var added := SumMonth([RecordText(record)]);
      assert added == Ok(());
      assert salary.log == o.log && salary.isExchanged == o.exchanged;
      r := Ok(Fixed2(Gross(salary.worktime)) + salary.GetCurrency());
    }

    /** Closing a month: save str(salary), the summary, and start a fresh Salary. */
    method CloseMonth()
      requires Valid()
      modifies this
      ensures Valid() && fresh(salary)
      ensures file == Some(Existing(old(file)) + SummaryLines(old(salary.log), old(salary.isExchanged)))
      ensures salary.log == [] && salary.isExchanged
    {
      SalaryTextLines(salary.daysAtWork, salary.worktime, salary.isExchanged);
      SaveData(SalaryText(salary.daysAtWork, salary.worktime, salary.isExchanged));
      salary := new Salary();
    }

    /**
     * The first half of process_file: when the file exists, sum its trailing
     * records into the salary and, when its last line names another month,
     * save the summary and start a fresh Salary.  Success leaves the state
     * from which appending and counting the record gives Process's outcome.
     */
    method ReadMonth() returns (r: Result<(), Crash>)
      requires Valid()
      modifies this, salary
      ensures Valid() && (salary == old(salary) || fresh(salary))
      ensures var p := Process(old(file), month, old(salary.log), old(salary.isExchanged), record);
        && (p.Err? ==> r == Err(p.error) && file == old(file))
        && (p.Ok? ==> r.Ok? && p.value == Outcome(Existing(file) + [RecordText(record)],
                                                  salary.log + DayMinutes(record), salary.isExchanged))
    {
      ghost var file0, log0, exchanged0 := file, salary.log, salary.isExchanged;
      var lines := GetLines();
      if lines.Some? {
        assert lines.value == Reverse(file.value);
        var summed := SumMonth(lines.value);
        if summed.Err? {
          ProcessTailFails(file0, month, log0, exchanged0, record);
          return Err(summed.error);
        }
        var again := GetLines();
        if |again.value| == 0 {
          assert file0 == Some([]);
          ProcessEmptyFile(month, log0, exchanged0, record);
          return Err(IndexError);
        }
        assert again.value[0] == file.value[|file.value| - 1];
        var last := GetMonth(again.value[0]);
        if last.Err? {
          ProcessMonthFails(file0, month, log0, exchanged0, record);
          return Err(last.error);
        }
        if last.value != month {
          ProcessCloses(file0, month, log0, exchanged0, record);
          CloseMonth();
          assert [] + DayMinutes(record) == DayMinutes(record);
        } else {
          ProcessContinues(file0, month, log0, exchanged0, record);
        }
      } else {
        ProcessContinues(file0, month, log0, exchanged0, record);
        assert Tail(file0).value == [] && log0 + [] == log0;
      }
      return Ok(());
    }
  }
}

=== FILE: record.dfy ===
/**
 * One work day of the ledger: its date, the clock times work started and
 * ended, and the line that represents it in the year file.
 */
module Records {
  import opened Wrappers
  import opened Text

  /** Seconds in a day: a timedelta's `.seconds` lies in [0, DAY). */
  const DAY: int := 86400

  /**
   * A logged day.  `date` is "dd.mm"; `start` and `end` are the clock times
   * as timedeltas since midnight, counted in seconds.
   */
  datatype Record = Record(date: string, start: int, end: int)

  predicate IsDate(d: string) {
    |d| == 5 && IsDigit(d[0]) && IsDigit(d[1]) && d[2] == '.' && IsDigit(d[3]) && IsDigit(d[4])
  }

  /** What every Record built from a day and two clock times satisfies. */
  predicate ValidRecord(r: Record) {
    && IsDate(r.date)
    && 0 <= r.start < DAY && r.start % 60 == 0
    && 0 <= r.end < DAY && r.end % 60 == 0
  }

  /** The month number written in a date "dd.mm". */
  function DateMonth(d: string): int
    requires IsDate(d)
  {
    DigitsValue(d[3..])
  }

  /**
   * Record(date, end_time): the date as "dd.mm" (strftime '%d.%m') and the
   * start and end clock times; the day comes from the start.
   */
  function NewRecord(day: int, month: int, hour: int, minute: int, endHour: int, endMinute: int): (r: Record)
    requires 1 <= day <= 31 && 1 <= month <= 12
    requires 0 <= hour < 24 && 0 <= minute < 60 && 0 <= endHour < 24 && 0 <= endMinute < 60
    ensures ValidRecord(r)
    ensures DigitsValue(r.date[..2]) == day && DateMonth(r.date) == month
    ensures r.start / 3600 == hour && r.start / 60 % 60 == minute
    ensures r.end / 3600 == endHour && r.end / 60 % 60 == endMinute
  {
    var date := Pad2(day) + "." + Pad2(month);
    var start, end := hour * 3600 + minute * 60, endHour * 3600 + endMinute * 60;
    assert date[..2] == Pad2(day) && date[3..] == Pad2(month);
    ClockParts(start, hour, minute);
    ClockParts(end, endHour, endMinute);
    Record(date, start, end)
  }

  /** timedelta.seconds: a timedelta normalised to whole days plus [0, DAY) seconds. */
  function Seconds(td: int): (s: int)
    ensures 0 <= s < DAY
    ensures (td - s) % DAY == 0
  {
    td % DAY
  }

  /** get_hour: "HH:MM" of a timedelta's seconds part. */
  function GetHour(td: int): (s: string)
    ensures |s| == 5 && s[2] == ':'
    ensures IsDigit(s[0]) && IsDigit(s[1]) && IsDigit(s[3]) && IsDigit(s[4])
    ensures DigitsValue(s[..2]) == Seconds(td) / 3600 && DigitsValue(s[3..]) == Seconds(td) / 60 % 60
  {
    var h, m := Pad2(Seconds(td) / 3600), Pad2(Seconds(td) / 60 % 60);
    assert (h + ":" + m)[..2] == h && (h + ":" + m)[3..] == m;
    h + ":" + m
  }

  /** Whole hours and the minutes past them make up the whole minutes. */
  lemma HoursAndMinutes(s: int)
    requires 0 <= s
    ensures (s / 3600) * 60 + s / 60 % 60 == s / 60
  {
    var q := s / 60;
    assert s / 3600 == q / 60 by {
      assert s == q * 60 + s % 60;
      assert q == (q / 60) * 60 + q % 60;
      assert s == (q / 60) * 3600 + (q % 60) * 60 + s % 60;
      assert 0 <= (q % 60) * 60 + s % 60 < 3600;
    }
  }

  /** "hh:mm" with two digits on each side splits at the colon into its two numbers. */
  lemma ClockFieldsReadBack(h: string, m: string)
    requires |h| == 2 && AllDigits(h) && |m| == 2 && AllDigits(m)
    ensures Split(h + ":" + m, ':') == [h, m]
    ensures ParseInt(h) == Some(DigitsValue(h)) && ParseInt(m) == Some(DigitsValue(m))
  {
    assert ':' !in h by { assert IsDigit(h[0]) && IsDigit(h[1]); }
    assert ':' !in m by { assert IsDigit(m[0]) && IsDigit(m[1]); }
    SplitAround(h, ':', m);
    SplitNoSeparator(m, ':');
    ParseDigits(h);
    ParseDigits(m);
  }

  /** The two fields of get_hour's text, read back, give the whole minutes of the seconds part. */
  lemma GetHourReadsBack(td: int)
    ensures Split(GetHour(td), ':') == [GetHour(td)[..2], GetHour(td)[3..]]
    ensures ParseInt(GetHour(td)[..2]).Some? && ParseInt(GetHour(td)[3..]).Some?
    ensures ParseInt(GetHour(td)[..2]).value * 60 + ParseInt(GetHour(td)[3..]).value == Seconds(td) / 60
  {
    var sec := Seconds(td);
    var h, m := Pad2(sec / 3600), Pad2(sec / 60 % 60);
    var s := GetHour(td);
    assert s == h + ":" + m;
    assert s[..2] == h && s[3..] == m;
    ClockFieldsReadBack(h, m);
    HoursAndMinutes(sec);
  }

  /** The seconds part of end - start: the time worked, wrapping past midnight. */
  function Duration(r: Record): int {
    Seconds(r.end - r.start)
  }

  /** The duration is end - start, plus a whole day when work ends "before" it started. */
  lemma DurationWraps(r: Record)
    requires ValidRecord(r)
    ensures r.start <= r.end ==> Duration(r) == r.end - r.start
    ensures r.end < r.start ==> Duration(r) == r.end - r.start + DAY
    ensures Duration(r) % 60 == 0
  {
  }

  /** __str__: "dd.mm", two tabs, "HH:MM-HH:MM", a tab, the duration "HH:MM" and "h". */
  function RecordText(r: Record): string {
    r.date + "\t\t" + GetHour(r.start) + "-" + GetHour(r.end) + "\t" + GetHour(r.end - r.start) + "h"
  }

  /** The record of test.py is built from 15.02, 08:00 and 18:25. */
  lemma NewRecordExample()
    ensures NewRecord(15, 2, 8, 0, 18, 25) == Record("15.02", 28800, 66300)
  {
    assert Pad2(15) == "15" && Pad2(2) == "02";
  }

  /** The record line, given the three clock texts it shows. */
  lemma RecordTextOf(r: Record, start: string, end: string, worked: string)
    requires GetHour(r.start) == start && GetHour(r.end) == end && GetHour(r.end - r.start) == worked
    ensures RecordText(r) == r.date + "\t\t" + start + "-" + end + "\t" + worked + "h"
  {
  }

  lemma ClockText(td: int, h: int, m: int)
    requires Seconds(td) == h * 3600 + m * 60 && 0 <= h < 24 && 0 <= m < 60
    ensures GetHour(td) == Pad2(h) + ":" + Pad2(m)
  {
    ClockParts(Seconds(td), h, m);
  }

  /** h hours and m minutes, in seconds, give back h and m as get_hour reads them. */
  lemma ClockParts(sec: int, h: int, m: int)
    requires sec == h * 3600 + m * 60 && 0 <= h && 0 <= m < 60
    ensures sec / 3600 == h && sec / 60 % 60 == m
  {
    assert sec / 60 == h * 60 + m;
    assert (h * 60 + m) % 60 == m;
  }

  /** The clock texts of the day test.py records: 08:00 to 18:25, 10:25 worked. */
  lemma ExampleClocks()
    ensures GetHour(28800) == "08:00" && GetHour(66300) == "18:25" && GetHour(66300 - 28800) == "10:25"
  {
    ClockText(28800, 8, 0);
    ClockText(66300, 18, 25);
    ClockText(66300 - 28800, 10, 25);
    assert Pad2(8) == "08" && Pad2(0) == "00" && Pad2(18) == "18" && Pad2(25) == "25" && Pad2(10) == "10";
  }

  /** The line test.py expects for 15.02 from 08:00 to 18:25. */
  lemma RecordTextExample()
    ensures RecordText(Record("15.02", 28800, 66300)) == "15.02\t\t08:00-18:25\t10:25h"
  {
    ExampleClocks();
    RecordTextOf(Record("15.02", 28800, 66300), "08:00", "18:25", "10:25");
    ExampleLine();
  }

  lemma ExampleLine()
    ensures "15.02" + "\t\t" + "08:00" + "-" + "18:25" + "\t" + "10:25" + "h" == "15.02\t\t08:00-18:25\t10:25h"
  {
  }

  /** Clock texts of a day from 08:00 to midnight: sixteen hours worked. */
  lemma MidnightClocks()
    ensures GetHour(28800) == "08:00" && GetHour(0) == "00:00" && GetHour(0 - 28800) == "16:00"
  {
    ClockText(28800, 8, 0);
    ClockText(0, 0, 0);
    ClockText(0 - 28800, 16, 0);
    assert Pad2(8) == "08" && Pad2(0) == "00" && Pad2(16) == "16";
  }

  /** A day ending at midnight: 08:00 to 00:00 is sixteen hours, not minus eight. */
  lemma MidnightExample()
    ensures RecordText(Record("31.08", 28800, 0)) == "31.08\t\t08:00-00:00\t16:00h"
  {
    MidnightClocks();
    RecordTextOf(Record("31.08", 28800, 0), "08:00", "00:00", "16:00");
    MidnightLine();
  }

  lemma MidnightLine()
    ensures "31.08" + "\t\t" + "08:00" + "-" + "00:00" + "\t" + "16:00" + "h" == "31.08\t\t08:00-00:00\t16:00h"
  {
  }
}

=== FILE: salary.dfy ===
/**
 * The monthly salary aggregate: minutes and days worked in one month, and the
 * pay, tax, exchange and summary computed from them.
 *
 * The read-only members of the source class (calculate_salary, deduct_tax,
 * exchange_currency, sum_up, __str__) are pure functions of the fields they
 * read; the class keeps the two counters that update_work changes in place.
 */
module Salaries {
  import opened Wrappers
  import opened Text

  const RATE: int := 250
  const CURRENCY: string := "NOK"
  const UNPAID_BREAK: int := 30
  const BREAK_AFTER: int := 240
  /** Monthly hours paid at the normal rate; beyond it hours are overtime. */
  const OVERTIME_HOURS: real := 162.5
  const BONUS: real := 1.5
  const STANDARD_TAX: real := 0.23
  const OVERTIME_TAX: real := 0.35
  const EXCHANGE_RATE: real := 0.41
  const EXCHANGE_CURRENCY: string := "PLN"
  /** The line that closes a month summary: 84 dashes. */
  const SEPARATOR: string := Dashes(84)

  function Dashes(n: nat): (s: string)
    ensures |s| == n && forall i :: 0 <= i < n ==> s[i] == '-'
  {
    if n == 0 then "" else Dashes(n - 1) + "-"
  }

  // ------------------------------------------------------------ worktime

  /** The minutes one day adds to worktime (the unpaid break comes off a long day). */
  function Credit(minutes: int): int {
    if minutes > BREAK_AFTER then minutes - UNPAID_BREAK else minutes
  }

  /** The worktime a sequence of update_work calls accumulates. */
  function Credited(days: seq<int>): int {
    if |days| == 0 then 0 else Credited(days[..|days| - 1]) + Credit(days[|days| - 1])
  }

  /** Worktime is additive over consecutive runs of days, whatever their order. */
  lemma {:induction false} CreditedAppend(a: seq<int>, b: seq<int>)
    ensures Credited(a + b) == Credited(a) + Credited(b)
  {
    if |b| > 0 {
      assert (a + b)[..|a + b| - 1] == a + b[..|b| - 1];
      CreditedAppend(a, b[..|b| - 1]);
    } else {
      assert a + b == a;
    }
  }

  lemma CreditedSwap(a: seq<int>, b: seq<int>)
    ensures Credited(a + b) == Credited(b + a)
  {
    CreditedAppend(a, b);
    CreditedAppend(b, a);
  }

  /** n working days of m minutes each add n times the day's credit. */
  lemma {:induction false} CreditedRepeat(n: nat, m: int)
    ensures Credited(seq(n, _ => m)) == n * Credit(m)
  {
    if n > 0 {
      assert seq(n, _ => m)[..n - 1] == seq(n - 1, _ => m);
      CreditedRepeat(n - 1, m);
    }
  }

  /** Twenty days of 480 minutes give 9000 minutes of worktime. */
  lemma TwentyFullDays()
    ensures Credited(seq(20, _ => 480)) == 9000
  {
    CreditedRepeat(20, 480);
  }

  // ----------------------------------------------------------------- pay

  /** A worktime in minutes as (fractional) hours. */
  function Hours(worktime: int): real {
    worktime as real / 60.0
  }

  /**
   * calculate_salary: (normal pay, overtime pay) for a month's worktime in
   * minutes.  Hours up to the threshold are paid at RATE; all hours beyond it
   * at RATE * BONUS, and then the normal pay stays at its cap.
   */
  function CalculateSalary(worktime: int): (pay: (real, real))
    ensures Hours(worktime) <= OVERTIME_HOURS ==> pay == (Hours(worktime) * RATE as real, 0.0)
    ensures Hours(worktime) > OVERTIME_HOURS ==>
              && pay.0 == OVERTIME_HOURS * RATE as real
              && pay.1 > 0.0
              && pay.0 + pay.1 / BONUS == Hours(worktime) * RATE as real
  {
    var hours := Hours(worktime);
    if hours > OVERTIME_HOURS then
      var extra := hours - OVERTIME_HOURS;
      ((hours - extra) * RATE as real, extra * RATE as real * BONUS)
    else
      (hours * RATE as real, 0.0)
  }

  /** sum(calculate_salary()): the month's pay before tax. */
  function Gross(worktime: int): real {
    CalculateSalary(worktime).0 + CalculateSalary(worktime).1
  }

  /** More worktime never pays less. */
  lemma GrossMonotonic(w1: int, w2: int)
    requires w1 <= w2
    ensures Gross(w1) <= Gross(w2)
  {
  }

  /** The values test.py checks against calculate_salary. */
  lemma CalculateSalaryExamples()
    ensures CalculateSalary(6000) == (25000.0, 0.0)
    ensures CalculateSalary(9750) == (40625.0, 0.0)
    ensures CalculateSalary(9810) == (40625.0, 375.0)
    ensures CalculateSalary(12000) == (40625.0, 14062.5)
    ensures CalculateSalary(15750) == (40625.0, 37500.0)
  {
  }

  /**
   * deduct_tax: pay after the standard tax on normal pay and the overtime tax
   * on overtime pay.  What is withheld is exactly those two shares.
   */
  function DeductTax(pay: (real, real)): (net: real)
    ensures (pay.0 + pay.1) - net == STANDARD_TAX * pay.0 + OVERTIME_TAX * pay.1
    ensures pay.0 >= 0.0 && pay.1 >= 0.0 ==> 0.0 <= net <= pay.0 + pay.1
  {
    pay.0 * (1.0 - STANDARD_TAX) + pay.1 * (1.0 - OVERTIME_TAX)
  }

  /** The values test.py checks against deduct_tax. */
  lemma DeductTaxExamples()
    ensures DeductTax((25000.0, 0.0)) == 19250.0
    ensures DeductTax((40625.0, 0.0)) == 31281.25
    ensures DeductTax((40625.0, 375.0)) == 31525.0
    ensures DeductTax((40625.0, 37500.0)) == 55656.25
  {
  }

  /** exchange_currency: the amount in the second currency, to two decimals, with its name. */
  function ExchangeCurrency(amount: real): string {
    Fixed2(amount * EXCHANGE_RATE) + EXCHANGE_CURRENCY
  }

  /** The exchanged text reads back as amount * 0.41 to within half a cent, then "PLN". */
  lemma ExchangeCurrencyReadsBack(amount: real)
    requires amount >= 0.0
    ensures var s := ExchangeCurrency(amount);
      && |s| > 3 && s[|s| - 3..] == EXCHANGE_CURRENCY
      && ParseCents(s[..|s| - 3]).Some?
      && var c := ParseCents(s[..|s| - 3]).value;
         amount * EXCHANGE_RATE - 0.005 <= c as real / 100.0 <= amount * EXCHANGE_RATE + 0.005
  {
    var s := ExchangeCurrency(amount);
    var f := Fixed2(amount * EXCHANGE_RATE);
    assert s == f + EXCHANGE_CURRENCY;
    assert s[..|s| - 3] == f;
    CentsRoundTrip(amount * EXCHANGE_RATE);
  }

  // ------------------------------------------------------------- summary

  /** First summary line: days, then worktime as hours:minutes. */
  function HoursLine(days: int, worktime: int): string {
    IntToString(days) + "\t\t\t\t" + IntToString(worktime / 60) + ":" + Pad2(worktime % 60) + "h"
  }

  function Exchanged(exchanged: bool, amount: real): string {
    if exchanged then " (" + ExchangeCurrency(amount) + ")" else ""
  }

  /** An amount in the salary currency, followed by its exchanged value when exchange is on. */
  function AmountText(amount: real, exchanged: bool): string {
    Fixed2(amount) + CURRENCY + Exchanged(exchanged, amount)
  }

  /** The pay after tax for a month's worktime. */
  function Net(worktime: int): real {
    DeductTax(CalculateSalary(worktime))
  }

  function GrossLine(worktime: int, exchanged: bool): string {
    "\t\t\t\t" + AmountText(Gross(worktime), exchanged)
  }

  function NetLine(worktime: int, exchanged: bool): string {
    "After tax:\t\t\t" + AmountText(Net(worktime), exchanged)
  }

  /** sum_up: the three summary lines, each ended by a newline. */
  function SumUp(days: int, worktime: int, exchanged: bool): string {
    HoursLine(days, worktime) + "\n" + GrossLine(worktime, exchanged) + "\n"
    + NetLine(worktime, exchanged) + "\n"
  }

  /** __str__: the summary, a blank line and the separator line. */
  function SalaryText(days: int, worktime: int, exchanged: bool): string {
    SumUp(days, worktime, exchanged) + "\n" + SEPARATOR + "\n"
  }

  /** The hours field of the summary reads back as the month's worktime. */
  lemma HoursFieldReadsBack(worktime: int)
    requires worktime >= 0
    ensures Split(IntToString(worktime / 60) + ":" + Pad2(worktime % 60), ':')
         == [IntToString(worktime / 60), Pad2(worktime % 60)]
    ensures ParseInt(IntToString(worktime / 60)) == Some(worktime / 60)
    ensures ParseInt(Pad2(worktime % 60)) == Some(worktime % 60)
    ensures (worktime / 60) * 60 + worktime % 60 == worktime
  {
    var h, m := IntToString(worktime / 60), Pad2(worktime % 60);
    NoCharInDigits(h, ':');
    NoCharInDigits(m, ':');
    SplitAround(h, ':', m);
    SplitNoSeparator(m, ':');
    ParseDigits(h);
    ParseDigits(m);
  }

  lemma NoCharInDigits(s: string, c: char)
    requires AllDigits(s) && !IsDigit(c)
    ensures c !in s
  {
    forall i | 0 <= i < |s| ensures s[i] != c {
      assert IsDigit(s[i]);
    }
  }

  lemma IntToStringChars(i: int, c: char)
    requires !IsDigit(c) && c != '-'
    ensures c !in IntToString(i)
  {
    if i < 0 {
      NoCharInDigits(NatToString(-i), c);
    } else {
      NoCharInDigits(NatToString(i), c);
    }
  }

  /** Fixed2 writes only digits, a point and a minus sign. */
  lemma Fixed2Chars(x: real, c: char)
    requires !IsDigit(c) && c != '.' && c != '-'
    ensures c !in Fixed2(x)
  {
    var y := if x < 0.0 then -x else x;
    var r := RoundHalfEven(y * 100.0);
    NoCharInDigits(NatToString(r / 100), c);
    NoCharInDigits(Pad2(r % 100), c);
    assert Cents(y) == NatToString(r / 100) + "." + Pad2(r % 100);
  }

  /** A character an amount text never holds (it holds digits, ".-", the currency names, " ()"). */
  predicate Foreign(c: char) {
    !IsDigit(c) && c !in ".- NOKPL()"
  }

  lemma AmountTextChars(amount: real, exchanged: bool, c: char)
    requires Foreign(c)
    ensures c !in AmountText(amount, exchanged)
  {
    Fixed2Chars(amount, c);
    if exchanged {
      Fixed2Chars(amount * EXCHANGE_RATE, c);
    }
  }

  /** The amount text shows a parenthesis exactly when exchange is on. */
  lemma AmountTextParen(amount: real, exchanged: bool)
    ensures '(' in AmountText(amount, exchanged) <==> exchanged
  {
    var prefix := Fixed2(amount) + CURRENCY;
    Fixed2Chars(amount, '(');
    if exchanged {
      assert AmountText(amount, exchanged)[|prefix| + 1] == '(';
    } else {
      assert AmountText(amount, exchanged) == prefix;
    }
  }

  lemma HoursLineChars(days: int, worktime: int, c: char)
    requires !IsDigit(c) && c !in "-\t:h"
    ensures c !in HoursLine(days, worktime)
  {
    IntToStringChars(days, c);
    IntToStringChars(worktime / 60, c);
    NoCharInDigits(Pad2(worktime % 60), c);
  }

  lemma ParenInSummary(a: string, b: string, c: string)
    ensures '(' in a + "\n" + ("\t\t\t\t" + b) + "\n" + ("After tax:\t\t\t" + c) + "\n"
        <==> '(' in a || '(' in b || '(' in c
  {
    assert '(' !in "\n" && '(' !in "\t\t\t\t" && '(' !in "After tax:\t\t\t";
  }

  /** The summary carries the exchanged amounts (in parentheses) exactly when exchange is on. */
  lemma SumUpExchangedIff(days: int, worktime: int, exchanged: bool)
    ensures '(' in SumUp(days, worktime, exchanged) <==> exchanged
  {
    var a, b, c := HoursLine(days, worktime), AmountText(Gross(worktime), exchanged), AmountText(Net(worktime), exchanged);
    HoursLineChars(days, worktime, '(');
    AmountTextParen(Gross(worktime), exchanged);
    AmountTextParen(Net(worktime), exchanged);
    ParenInSummary(a, b, c);
    assert SumUp(days, worktime, exchanged) == a + "\n" + ("\t\t\t\t" + b) + "\n" + ("After tax:\t\t\t" + c) + "\n";
  }

  /** The separator line holds dashes only, so no newline. */
  lemma SeparatorIsOneLine()
    ensures '\n' !in SEPARATOR
  {
    forall i | 0 <= i < |SEPARATOR| ensures SEPARATOR[i] != '\n' { }
  }

  /** Three lines, a blank one and a closing line, each ended by a newline, split back into six lines. */
  lemma SixLines(l1: string, l2: string, l3: string, l5: string)
    requires '\n' !in l1 && '\n' !in l2 && '\n' !in l3 && '\n' !in l5
    ensures Split(l1 + "\n" + l2 + "\n" + l3 + "\n" + "\n" + l5 + "\n", '\n')
         == [l1, l2, l3, "", l5, ""]
  {
    SplitNoSeparator(l1, '\n');
    SplitNoSeparator(l2, '\n');
    SplitNoSeparator(l3, '\n');
    SplitNoSeparator(l5, '\n');
    var sumUp := l1 + "\n" + l2 + "\n" + l3 + "\n";
    SplitConcat(l1, '\n', l2);
    SplitConcat(l1 + "\n" + l2, '\n', l3);
    SplitEnd(l1 + "\n" + l2 + "\n" + l3, '\n');
    assert Split(sumUp, '\n') == [l1, l2, l3, ""];
    SplitConcat(sumUp, '\n', l5);
    SplitEnd(sumUp + "\n" + l5, '\n');
  }

  /**
   * Saved to the year file (the text plus a newline), the summary is six
   * lines: the three of sum_up, a blank, the separator and a blank.
   */
  lemma SalaryTextLines(days: int, worktime: int, exchanged: bool)
    ensures Split(SalaryText(days, worktime, exchanged), '\n')
         == [HoursLine(days, worktime), GrossLine(worktime, exchanged), NetLine(worktime, exchanged),
             "", SEPARATOR, ""]
  {
    SalaryTextJoins(days, worktime, exchanged);
    SummaryLinesAreLines(days, worktime, exchanged);
    SixLines(HoursLine(days, worktime), GrossLine(worktime, exchanged), NetLine(worktime, exchanged), SEPARATOR);
  }

  /** __str__ is the three summary lines, a blank line and the separator, each ended by a newline. */
  lemma SalaryTextJoins(days: int, worktime: int, exchanged: bool)
    ensures SalaryText(days, worktime, exchanged)
         == HoursLine(days, worktime) + "\n" + GrossLine(worktime, exchanged) + "\n"
            + NetLine(worktime, exchanged) + "\n" + "\n" + SEPARATOR + "\n"
  {
  }

  /** None of the summary's lines holds a newline. */
  lemma SummaryLinesAreLines(days: int, worktime: int, exchanged: bool)
    ensures '\n' !in HoursLine(days, worktime)
    ensures '\n' !in GrossLine(worktime, exchanged) && '\n' !in NetLine(worktime, exchanged)
    ensures '\n' !in SEPARATOR
  {
    HoursLineChars(days, worktime, '\n');
    AmountLinesAreLines(worktime, exchanged);
    SeparatorIsOneLine();
  }

  /** Neither amount line of the summary holds a newline. */
  lemma AmountLinesAreLines(worktime: int, exchanged: bool)
    ensures '\n' !in GrossLine(worktime, exchanged) && '\n' !in NetLine(worktime, exchanged)
  {
    AmountLineChars("\t\t\t\t", Gross(worktime), exchanged, '\n');
    AmountLineChars("After tax:\t\t\t", Net(worktime), exchanged, '\n');
  }

  /** A prefix followed by an amount text holds a foreign character only if the prefix does. */
  lemma AmountLineChars(prefix: string, amount: real, exchanged: bool, c: char)
    requires Foreign(c) && c !in prefix
    ensures c !in prefix + AmountText(amount, exchanged)
  {
    AmountTextChars(amount, exchanged, c);
  }

  // --------------------------------------------------------------- state

  /** The month being accumulated: worktime and days at work only grow. */
  class Salary {
    var rate: int
    var currency: string
    var isExchanged: bool
    var worktime: int
    var daysAtWork: int
    /** The minutes passed to UpdateWork so far, in call order. */
    ghost var log: seq<int>

    ghost predicate Valid()
      reads this
    {
      && rate == RATE
      && currency == CURRENCY
      && worktime == Credited(log)
      && daysAtWork == |log|
    }

    constructor ()
      ensures Valid() && log == []
      ensures rate == 250 && currency == "NOK" && isExchanged
      ensures worktime == 0 && daysAtWork == 0
    {
      rate := RATE;
      currency := CURRENCY;
      isExchanged := true;
      worktime := 0;
      daysAtWork := 0;
      log := [];
    }

    /** update_work: one more day at work; a day over 240 minutes loses a 30-minute break. */
    method UpdateWork(minutes: int)
      requires Valid()
      modifies this
      ensures Valid() && log == old(log) + [minutes]
      ensures minutes > BREAK_AFTER ==> worktime == old(worktime) + minutes - UNPAID_BREAK
      ensures minutes <= BREAK_AFTER ==> worktime == old(worktime) + minutes
      ensures daysAtWork == old(daysAtWork) + 1
      ensures minutes >= 0 ==> worktime >= old(worktime)
      ensures isExchanged == old(isExchanged)
    {
      var paid := minutes;
      if paid > BREAK_AFTER {
        paid := paid - UNPAID_BREAK;
      }
      worktime := worktime + paid;
      daysAtWork := daysAtWork + 1;
      log := log + [minutes];
      assert log[..|log| - 1] == old(log);
    }

    /** get_currency. */
    function GetCurrency(): (c: string)
      reads this
      requires Valid()
      ensures c == "NOK"
    {
      currency
    }
  }
}

=== FILE: text.dfy ===
/**
 * The Python built-ins the ledger relies on, written out: `str()` of an int,
 * the `:02` and `:.2f` format specifications, `int()` on a string and
 * `str.split`.  Only what the two core files use is modelled.
 */
module Text {
  import opened Wrappers

  // ---------------------------------------------------------------- digits

  predicate IsDigit(c: char) {
    '0' <= c <= '9'
  }

  predicate AllDigits(s: string) {
    forall i :: 0 <= i < |s| ==> IsDigit(s[i])
  }

  function DigitChar(d: int): (c: char)
    requires 0 <= d < 10
    ensures IsDigit(c) && c as int - '0' as int == d
  {
    ('0' as int + d) as char
  }

  function DigitValue(c: char): int
    requires IsDigit(c)
  {
    c as int - '0' as int
  }

  /** The number a string of decimal digits denotes (most significant first). */
  function DigitsValue(s: string): nat
    requires AllDigits(s)
  {
    if |s| == 0 then 0 else DigitsValue(s[..|s| - 1]) * 10 + DigitValue(s[|s| - 1])
  }

  // ------------------------------------------------------------ rendering

  /** `str(n)` for n >= 0: shortest decimal form, read back as n. */
  function NatToString(n: nat): (s: string)
    ensures |s| >= 1 && AllDigits(s) && DigitsValue(s) == n
    ensures s[0] == '0' ==> n == 0
  {
    if n < 10 then [DigitChar(n)]
    else
      var front := NatToString(n / 10);
      var s := front + [DigitChar(n % 10)];
      assert s[..|s| - 1] == front;
      s
  }

  /** `str(i)` (and `f'{i}'`) for any int: a minus sign in front of a negative number. */
  function IntToString(i: int): (s: string)
    ensures |s| >= 1
    ensures i >= 0 ==> AllDigits(s) && DigitsValue(s) == i
    ensures i < 0 ==> s[0] == '-' && AllDigits(s[1..]) && DigitsValue(s[1..]) == -i
  {
    if i < 0 then "-" + NatToString(-i) else NatToString(i)
  }

  /** `f'{n:02}'` for 0 <= n < 100: exactly two digits, read back as n. */
  function Pad2(n: int): (s: string)
    requires 0 <= n < 100
    ensures |s| == 2 && AllDigits(s) && DigitsValue(s) == n
  {
    var s := [DigitChar(n / 10), DigitChar(n % 10)];
    assert s[..1] == [s[0]] && s[..1][..0] == [];
    assert DigitsValue(s[..1]) == n / 10;
    s
  }

  /** Rounds y to an integer, a tie going to the even neighbour. */
  function RoundHalfEven(y: real): (n: int)
    ensures y - 0.5 <= n as real <= y + 0.5
    ensures n as real - y == 0.5 || y - n as real == 0.5 ==> n % 2 == 0
  {
    var f := y.Floor;
    var frac := y - f as real;
    if frac < 0.5 then f
    else if frac > 0.5 then f + 1
    else if f % 2 == 0 then f
    else f + 1
  }

  /** `f'{x:.2f}'` for x >= 0: whole part, a point and two decimals of x rounded to cents. */
  function Cents(x: real): string
    requires x >= 0.0
  {
    var c := RoundHalfEven(x * 100.0);
    NatToString(c / 100) + "." + Pad2(c % 100)
  }

  /** `f'{x:.2f}'`: a negative amount gets a minus sign in front. */
  function Fixed2(x: real): string {
    if x < 0.0 then "-" + Cents(-x) else Cents(x)
  }

  /** Reads "D...D.DD" back as a number of cents (the inverse of Cents). */
  function ParseCents(s: string): Option<int> {
    var parts := Split(s, '.');
    if |parts| == 2 && |parts[0]| >= 1 && AllDigits(parts[0]) && |parts[1]| == 2 && AllDigits(parts[1])
    then Some(DigitsValue(parts[0]) * 100 + DigitsValue(parts[1]))
    else None
  }

  /** The rendered amount, read back, is x to within half a cent. */
  lemma CentsRoundTrip(x: real)
    requires x >= 0.0
    ensures ParseCents(Cents(x)).Some?
    ensures var c := ParseCents(Cents(x)).value; x - 0.005 <= c as real / 100.0 <= x + 0.005
  {
    var c := RoundHalfEven(x * 100.0);
    var whole, frac := NatToString(c / 100), Pad2(c % 100);
    assert '.' !in whole by {
      forall i | 0 <= i < |whole| ensures whole[i] != '.' { assert IsDigit(whole[i]); }
    }
    assert '.' !in frac by { assert IsDigit(frac[0]) && IsDigit(frac[1]); }
    SplitAround(whole, '.', frac);
    SplitNoSeparator(frac, '.');
    assert Split(Cents(x), '.') == [whole, frac];
    assert (c / 100) * 100 + c % 100 == c;
  }

  // ----------------------------------------------------------------- int()

  /** The characters (of the ASCII range) that `int()` skips around a number. */
  predicate IsSpace(c: char) {
    c == ' ' || 9 <= c as int <= 13 || 28 <= c as int <= 31
  }

  function StripLeft(s: string): (t: string)
    ensures |t| <= |s|
    ensures |t| > 0 ==> !IsSpace(t[0])
  {
    if |s| > 0 && IsSpace(s[0]) then StripLeft(s[1..]) else s
  }

  function StripRight(s: string): (t: string)
    ensures |t| <= |s|
    ensures |t| > 0 ==> !IsSpace(t[|t| - 1])
  {
    if |s| > 0 && IsSpace(s[|s| - 1]) then StripRight(s[..|s| - 1]) else s
  }

  /**
   * The digit part `int()` accepts: a digit, then either nothing, or the
   * digit part of the rest, or an underscore and the digit part after it.
   */
  predicate IsDigitPart(s: string)
    decreases |s|
  {
    && |s| > 0 && IsDigit(s[0])
    && (|s| == 1 || (if s[1] == '_' then |s| > 2 && IsDigitPart(s[2..]) else IsDigitPart(s[1..])))
  }

  /** The digits of a digit part, its underscores removed. */
  function DropUnderscores(s: string): (t: string)
    requires IsDigitPart(s)
    ensures |t| > 0 && AllDigits(t)
    ensures AllDigits(s) ==> t == s
    decreases |s|
  {
    if |s| == 1 then s
    else if s[1] == '_' then [s[0]] + DropUnderscores(s[2..])
    else [s[0]] + DropUnderscores(s[1..])
  }

  /** The value of a digit part, or None when the text is not one. */
  function DigitPartValue(s: string): Option<nat> {
    if IsDigitPart(s) then Some(DigitsValue(DropUnderscores(s))) else None
  }

  /**
   * `int(s)` for a str: surrounding white space, an optional sign, then a
   * digit part.  None is the ValueError `int()` raises on anything else.
   */
  function ParseInt(s: string): Option<int> {
    var t := StripLeft(StripRight(s));
    if |t| > 0 && (t[0] == '+' || t[0] == '-') then
      match DigitPartValue(t[1..])
      case None => None
      case Some(v) => var n: int := v; Some(if t[0] == '-' then -n else n)
    else DigitPartValue(t)
  }

  /** A run of digits is a digit part. */
  lemma {:induction false} DigitsAreDigitPart(s: string)
    requires |s| > 0 && AllDigits(s)
    ensures IsDigitPart(s)
    decreases |s|
  {
    if |s| > 1 {
      assert IsDigit(s[1]);
      DigitsAreDigitPart(s[1..]);
    }
  }

  /** A plain run of digits is read as the number it spells. */
  lemma ParseDigits(s: string)
    requires |s| > 0 && AllDigits(s)
    ensures ParseInt(s) == Some(DigitsValue(s))
  {
    assert IsDigit(s[0]) && IsDigit(s[|s| - 1]);
    assert !IsSpace(s[|s| - 1]) && !IsSpace(s[0]);
    assert StripRight(s) == s;
    assert StripLeft(s) == s;
    assert s[0] != '+' && s[0] != '-';
    DigitsAreDigitPart(s);
    assert DropUnderscores(s) == s;
  }

  // ------------------------------------------------------------ str.split

  /** `s.split(sep)`: the pieces between separators, "" pieces included. */
  function Split(s: string, sep: char): (parts: seq<string>)
    ensures |parts| >= 1
  {
    if |s| == 0 then [""]
    else
      var rest := Split(s[1..], sep);
      if s[0] == sep then [""] + rest
      else [[s[0]] + rest[0]] + rest[1..]
  }

  /** `sep.join(parts)`. */
  function Join(parts: seq<string>, sep: char): string
    requires |parts| >= 1
  {
    if |parts| == 1 then parts[0] else parts[0] + [sep] + Join(parts[1..], sep)
  }

  lemma {:induction false} SplitNoSeparator(s: string, sep: char)
    requires sep !in s
    ensures Split(s, sep) == [s]
  {
    if |s| > 0 {
      SplitNoSeparator(s[1..], sep);
      assert [s[0]] + s[1..] == s;
    }
  }

  lemma {:induction false} SplitAround(a: string, sep: char, b: string)
    requires sep !in a
    ensures Split(a + [sep] + b, sep) == [a] + Split(b, sep)
  {
    if |a| == 0 {
      assert a + [sep] + b == [sep] + b;
      assert ([sep] + b)[1..] == b;
    } else {
      assert (a + [sep] + b)[1..] == a[1..] + [sep] + b;
      SplitAround(a[1..], sep, b);
      assert [a[0]] + a[1..] == a;
    }
  }

  /** A text holding the separator splits into at least two pieces. */
  lemma {:induction false} SplitAtSeparator(s: string, sep: char, k: int)
    requires 0 <= k < |s| && s[k] == sep
    ensures |Split(s, sep)| >= 2
  {
    if s[0] != sep {
      SplitAtSeparator(s[1..], sep, k - 1);
    }
  }

  /** A separator between two texts separates their pieces: the split of the whole is the two splits. */
  lemma {:induction false} SplitConcat(a: string, sep: char, b: string)
    ensures Split(a + [sep] + b, sep) == Split(a, sep) + Split(b, sep)
  {
    if |a| == 0 {
      assert (a + [sep] + b)[1..] == b;
    } else {
      SplitConcat(a[1..], sep, b);
      SplitConcatStep(a[0], a[1..], sep, b);
      assert [a[0]] + a[1..] == a;
    }
  }

  /** One character in front of both sides keeps SplitConcat true. */
  lemma SplitConcatStep(c: char, a: string, sep: char, b: string)
    requires Split(a + [sep] + b, sep) == Split(a, sep) + Split(b, sep)
    ensures Split([c] + a + [sep] + b, sep) == Split([c] + a, sep) + Split(b, sep)
  {
    assert [c] + a + [sep] + b == [c] + (a + [sep] + b);
    SplitCons(c, a + [sep] + b, sep);
    SplitCons(c, a, sep);
    PiecesMerge(c, Split(a, sep), Split(b, sep));
  }

  /** Sequence algebra behind SplitConcatStep: a character joins the first piece or starts a new one. */
  lemma PiecesMerge(c: char, p: seq<string>, q: seq<string>)
    requires |p| >= 1
    ensures [""] + (p + q) == ([""] + p) + q
    ensures [[c] + (p + q)[0]] + (p + q)[1..] == ([[c] + p[0]] + p[1..]) + q
  {
    assert (p + q)[0] == p[0] && (p + q)[1..] == p[1..] + q;
  }

  /** The split of a text with one more character in front. */
  lemma SplitCons(c: char, t: string, sep: char)
    ensures c == sep ==> Split([c] + t, sep) == [""] + Split(t, sep)
    ensures c != sep ==> Split([c] + t, sep) == [[c] + Split(t, sep)[0]] + Split(t, sep)[1..]
  {
    assert ([c] + t)[1..] == t;
  }

  /** A text ended by the separator splits into its pieces and a last empty one. */
  lemma SplitEnd(a: string, sep: char)
    ensures Split(a + [sep], sep) == Split(a, sep) + [""]
  {
    SplitConcat(a, sep, "");
    assert a + [sep] + "" == a + [sep];
  }

  /** Joining the pieces of a split gives the text back. */
  lemma {:induction false} JoinSplit(s: string, sep: char)
    ensures Join(Split(s, sep), sep) == s
  {
    if |s| > 0 {
      JoinSplit(s[1..], sep);
      var rest := Split(s[1..], sep);
      if s[0] == sep {
        assert ([""] + rest)[1..] == rest;
      } else if |rest| == 1 {
        assert Join(Split(s, sep), sep) == [s[0]] + rest[0];
      } else {
        assert ([[s[0]] + rest[0]] + rest[1..])[1..] == rest[1..];
        assert Join(rest, sep) == rest[0] + [sep] + Join(rest[1..], sep);
      }
    }
  }

  /** Splitting a join of separator-free pieces gives the pieces back. */
  lemma {:induction false} SplitJoin(parts: seq<string>, sep: char)
    requires |parts| >= 1
    requires forall i :: 0 <= i < |parts| ==> sep !in parts[i]
    ensures Split(Join(parts, sep), sep) == parts
  {
    if |parts| == 1 {
      SplitNoSeparator(parts[0], sep);
    } else {
      SplitJoin(parts[1..], sep);
      SplitAround(parts[0], sep, Join(parts[1..], sep));
    }
  }
}

=== FILE: wrappers.dfy ===
/** Option and Result datatypes used across the model. */
module Wrappers {

  /** A value that may be absent (the source's `False` / "no match" returns). */
  datatype Option<+T> = None | Some(value: T)

  /** A computation that either succeeds or raises one of the source's exceptions. */
  datatype Result<+T, +E> = Ok(value: T) | Err(error: E)
}
